=== FILE: README.md ===
# Frame hand-off between the signal analyzer and the ChiField render worker

This project models, in Dafny, how web-synth's signal analyzer hands audio-spectrum
frames to a render worker without locks. The producer is `SignalAnalyzerInst`. The
consumer is the wait loop of `ChiFieldRendererWorker`. They share two things:

- a byte buffer holding the latest frequency snapshot;
- a one-element `Int32Array`, the notify cell, holding a wrapping frame counter.

On each display frame, `animate` samples the analyser into a scratch buffer. It copies
the scratch buffer into the shared buffer, stores `(frameIx + 1) % 100000` into the
cell, notifies waiters and schedules the next frame. A worker loop waits until the cell
differs from the last value it recorded, then records the new value. Each new start
installs a fresh run token, and any loop holding an older token returns at its next
check. The project also models the ChiField default UI state.

Everything is modelled as a sequential state machine. Each event is one atomic step of
one side, and an interleaving is a finite sequence of events:

- `common.dfy`: `Option` and `Result`.
- `shared_memory.dfy` (`SharedMemory`): the shared region and the counter arithmetic.
  It writes out JavaScript's truncating `%`, the Int32 store conversion,
  `TypedArray.set` and `getByteFrequencyData` explicitly.
- `signal_analyzer.dfy` (`SignalAnalyzer`): the producer. `requestAnimationFrame` is a
  count of scheduled callbacks (`pendingFrames`), and `FireFrame` is one callback
  running.
- `chi_field_worker.dfy` (`ChiFieldWorker`): `maybeStartAnimationLoop` and its loops.
  - The random run token is modelled as a fresh generation number.
  - Whether `Atomics.waitAsync` exists is a property of the platform, so the wait path
    belongs to the worker and every loop uses it.
  - A loop iteration is split into separate events. `Iterate` is the token check plus issuing the wait. `Wake` is a suspended wait
    returning. On the poll fallback, `Continue` is the return from the
    `await setTimeout(…, 0)` that follows the wait; only then is the result handled.
  - Every `Ready` phase is a split that exists only in the model. That covers a new
    loop, which starts `Ready`, and a loop that has just handled a result after `Wake`
    or `Continue`. In the code, nothing is awaited between the start (or the load of
    the cell, or the `continue` after a timeout) and the next token check and wait
    call, so other work on the worker can run only while a loop is suspended in
    `waitAsync` or in the `setTimeout` yield. The model therefore also admits
    interleavings the code cannot produce, such as a second start while a loop is
    `Ready`, after which that loop exits without recording. In the code a loop is
    superseded only while suspended, so `SupersededLoopSilent` applies there after the
    one extra record of `SupersededWaitRecordsOnce`. The lemmas hold over all
    interleavings the model admits, so they hold of the code's too.
  - `Atomics.notify` marks every suspended wait as woken.
- `frame_sync.dfy` (`FrameSync`): both sides composed, with `Step` and `Run` over
  interleavings. While a fallback `Atomics.wait` is suspended it holds the worker
  thread, so the only worker event that can happen then is that wait returning.
- `chi_field_types.dfy` (`ChiFieldTypes`): the window-type enum and
  `buildDefaultChiFieldUIState`.

Worker steps receive only the current cell value and never return shared memory, so the
consumer side is read-only by construction. `WorkerNeverWrites` states this for whole
interleavings.

Behaviour of the code as written, kept in the model:

- `destroy` does not clear `running`, so a destroyed analyzer that was running keeps
  publishing (`DestroyedAnalyzerStillPublishes`).
- `resume` calls `animate` directly and never cancels the callback already scheduled.
  Calling it while running, or after a `pause` whose last callback has not fired yet,
  adds a second chain of scheduled frames, and the counter then advances twice per
  display refresh (`ResumeAddsChain` and the two lemmas after it).
- `destroy` tears down the oscilloscope and the line spectrogram but never calls
  `chiField.destroy()`, so the worker is never terminated and its loops outlive the
  analyzer. The model's `AnalyzerDestroy` event leaves the worker alone.
- `pause` and `resume` call `chiField.stop()`/`start()`, which are empty, so pausing
  the analyzer does not stop the worker's loops.
- `maybeStartAnimationLoop` has no caller in the worker file. The model lets it run as
  an event (`WorkerStart`). It sets no `running` flag. Its loop records the frame
  counter but never calls `render`, and nothing stops it except a newer start.
- The worker's `running` starts as `true` and is never changed.
- `waitAsync` is called without a timeout (an infinite one), so on that path the
  `timed-out` branch is unreachable. Only the 5 ms `Atomics.wait` fallback can time out.
- The token is checked only at the top of an iteration. A loop superseded after it
  obtained a result still records the cell once more (into its own local variable),
  and then returns (`SupersededWaitRecordsOnce`). On `waitAsync` this is a loop
  superseded while suspended in its wait. On the fallback the blocking wait holds the
  thread, so nothing can supersede a loop inside it (`BlockedWaitStaysLive`); the
  window is the `setTimeout` yield after the wait, before the load.
- The shared buffer is first sized `max(fftSize / 2, 32)` and then re-allocated with
  `fftSize / 2` bytes. Only the second size is used. The two differ only for
  `fftSize == 32`.

`LineSpectrogramFFTSize` is defined in a file that is not part of this model, so the
analyser size is a parameter. An unsupported size fails construction with the error
`AnalyserNode` throws.

## Model

| member | source | states |
|---|---|---|
| `SharedMemory.NextFrameIx` | src/signalAnalyzer/SignalAnalyzerInst.ts:142 | from a counter value, the next one is again in [0, 100000) and different from it; it is `ix + 1` below the bound and wraps 99999 to 0 |
| `SharedMemory.JsRem` | src/signalAnalyzer/SignalAnalyzerInst.ts:142 | JavaScript's remainder lies strictly between -n and n, takes the sign of the dividend, and agrees with the mathematical modulus for non-negative dividends |
| `SharedMemory.ToInt32` | src/signalAnalyzer/SignalAnalyzerInst.ts:149 | a store into the Int32 cell yields a signed 32-bit value congruent to the number modulo 2^32, equal to it when it already fits |
| `SharedMemory.FrameIxFitsInt32` | src/signalAnalyzer/SignalAnalyzerInst.ts:149 | every frame counter value is stored into the cell unchanged |
| `SharedMemory.TypedArraySet` | src/signalAnalyzer/SignalAnalyzerInst.ts:148 | `set` keeps the target's length, overwrites the leading elements with the source, and keeps the rest |
| `SharedMemory.ByteFrequencyData` | src/signalAnalyzer/SignalAnalyzerInst.ts:146 | the scratch buffer keeps its length and takes the analyser's magnitudes where they reach; it is exactly their prefix when the analyser supplies enough |
| `SharedMemory.WriteMagnitudes` | src/signalAnalyzer/SignalAnalyzerInst.ts:148 | copying a same-length snapshot makes the shared buffer equal to it and leaves the cell alone |
| `SharedMemory.StoreCell` | src/signalAnalyzer/SignalAnalyzerInst.ts:149 | storing a counter value sets the cell to it and leaves the shared bytes alone |
| `SignalAnalyzer.Construct` | src/signalAnalyzer/SignalAnalyzerInst.ts:65-85 | with the dB range taken as accepted, construction succeeds exactly for sizes an analyser accepts; then counter and cell are 0, nothing runs or is scheduled, no worklet node exists, and both buffers are zero-filled with fftSize/2 bytes |
| `SignalAnalyzer.DiscardedBufferSize` | src/signalAnalyzer/SignalAnalyzerInst.ts:77 | the first computed buffer size is the larger of fftSize/2 and 32 (the byte size of eight Int32 elements) |
| `SignalAnalyzer.DiscardedSizeMattersOnlyAt32` | src/signalAnalyzer/SignalAnalyzerInst.ts:77-82 | for every size an analyser accepts, the first computed buffer size equals the size finally allocated if and only if fftSize is not 32 |
| `SignalAnalyzer.Init` | src/signalAnalyzer/SignalAnalyzerInst.ts:114-133 | after destroy, `init` only warns and creates no worklet node; otherwise it performs exactly four steps: creating the node, wiring the input, wiring the silent gain, and requesting the shared buffer, in that order, without a warning; it never performs a teardown step; only the worklet-node flag changes, never the counter, the running and destroyed flags, the scheduled frames, the scratch buffer or the shared region |
| `SignalAnalyzer.AnimateStages` | src/signalAnalyzer/SignalAnalyzerInst.ts:146-149 | the shared region a reader can observe during a tick: first as it was, then with the new snapshot and the old cell, then with the snapshot and the next counter |
| `SignalAnalyzer.Animate` | src/signalAnalyzer/SignalAnalyzerInst.ts:137-153 | a non-running tick changes nothing and publishes nothing; a running tick advances the counter to its successor, makes the shared buffer equal the new snapshot, sets the cell to the counter, publishes, and schedules one more frame |
| `SignalAnalyzer.WriteBeforePublish` | src/signalAnalyzer/SignalAnalyzerInst.ts:146-150 | at every intermediate state of a tick in which the cell already shows the new counter, the shared buffer already holds the new snapshot |
| `SignalAnalyzer.FireFrame` | src/signalAnalyzer/SignalAnalyzerInst.ts:137-152 | a scheduled frame while paused consumes the callback without publishing or rescheduling; while running it samples the analyser into scratch, copies that snapshot into the shared buffer, publishes the next counter in the cell and reschedules; with nothing scheduled nothing happens |
| `SignalAnalyzer.FireFrames` | src/signalAnalyzer/SignalAnalyzerInst.ts:137-152 | a run of frame callbacks never adds scheduled frames, keeps their number while running, and never changes the running, destroyed or worklet-node flags |
| `SignalAnalyzer.Pause` | src/signalAnalyzer/SignalAnalyzerInst.ts:155-160 | pause clears `running` and leaves the counter, the shared region, the scratch buffer, the scheduled callbacks, the destroyed flag and the worklet node alone |
| `SignalAnalyzer.PausedFramesInert` | src/signalAnalyzer/SignalAnalyzerInst.ts:138-140 | from a paused analyzer, any number of frames leave counter, cell and shared buffer unchanged and the analyzer paused |
| `SignalAnalyzer.Resume` | src/signalAnalyzer/SignalAnalyzerInst.ts:162-170 | resume sets `running` and performs exactly one tick: the counter advances by one, a fresh snapshot is sampled and copied into the shared buffer, the cell shows the new counter, one frame is scheduled, and the destroyed and worklet-node flags stay |
| `SignalAnalyzer.ResumeAddsChain` | src/signalAnalyzer/SignalAnalyzerInst.ts:162-170 | with any number p of frames scheduled, including none (the resume after construction or after a paused callback has fired), resume leaves p+1 scheduled, so the next display refresh advances the counter by p+1 on top of resume's own tick |
| `SignalAnalyzer.ResumeWhileRunningDoublesChains` | src/signalAnalyzer/SignalAnalyzerInst.ts:162-170 | resuming an analyzer already running with its one chain leaves two chains, and each refresh then advances the counter by 2 |
| `SignalAnalyzer.PauseThenResumeDoublesChains` | src/signalAnalyzer/SignalAnalyzerInst.ts:155-170 | pause keeps the scheduled callback, so pause followed by resume before it fires also leaves two chains, advancing the counter by 2 per refresh |
| `SignalAnalyzer.TeardownEffects` | src/signalAnalyzer/SignalAnalyzerInst.ts:188-195 | the teardown of a first destroy performs each step exactly once, the worklet port close and node disconnect only when the node exists, and closes the port right before disconnecting the node |
| `SignalAnalyzer.Destroy` | src/signalAnalyzer/SignalAnalyzerInst.ts:180-196 | destroy marks the analyzer destroyed; on a destroyed one it only warns; otherwise it performs exactly the teardown steps in the order of `TeardownEffects`, each once (the worklet node's only if it exists), and no already-destroyed warning; it never changes `running`, the counter, the shared region, the scheduled callbacks or the scratch buffer |
| `SignalAnalyzer.DestroyIdempotent` | src/signalAnalyzer/SignalAnalyzerInst.ts:180-186 | a second destroy leaves the state as the first left it and only warns |
| `SignalAnalyzer.DestroyedOnlyWarns` | src/signalAnalyzer/SignalAnalyzerInst.ts:180-184 | any number of destroys on a destroyed analyzer keep the state and produce only warnings, one per call |
| `SignalAnalyzer.DestroyEffectsDistinct` | src/signalAnalyzer/SignalAnalyzerInst.ts:185-196 | one destroy performs each teardown step at most once, and none when already destroyed |
| `SignalAnalyzer.TeardownAtMostOnce` | src/signalAnalyzer/SignalAnalyzerInst.ts:180-196 | however many times destroy is called, each teardown step happens at most once in total |
| `SignalAnalyzer.DestroyedAnalyzerStillPublishes` | src/signalAnalyzer/SignalAnalyzerInst.ts:180-196 | because destroy leaves `running` set, the next scheduled frame after destroy still publishes the next counter |
| `SignalAnalyzer.NextFrameAfter` | src/signalAnalyzer/SignalAnalyzerInst.ts:142 | one more increment of the counter after k frames gives the counter after k+1 frames |
| `SignalAnalyzer.RunningFramesAdvance` | src/signalAnalyzer/SignalAnalyzerInst.ts:142-152 | k frames of a running analyzer advance the counter by k modulo 100000, keep the invariant (counter in range and equal to the cell, shared buffer equal to scratch, fixed length), and leave the shared buffer holding the last frame's magnitudes |
| `ChiFieldWorker.NewWorker` | src/visualizations/ChiField/ChiFieldRenderer.worker.ts:11-18 | a fresh worker is running, has no shared views and no run token, and satisfies the generation invariant |
| `ChiFieldWorker.HandleInit` | src/visualizations/ChiField/ChiFieldRenderer.worker.ts:21-25 | the init message sets both shared views and leaves the token and loops alone |
| `ChiFieldWorker.StartLoop` | src/visualizations/ChiField/ChiFieldRenderer.worker.ts:183-200 | without `running` and both views nothing changes, not even the token; otherwise a token different from every earlier one becomes current and a loop holding it starts at -1 |
| `ChiFieldWorker.HandleResult` | src/visualizations/ChiField/ChiFieldRenderer.worker.ts:217-220 | a timeout keeps the last recorded frame; any other result records the current cell value |
| `ChiFieldWorker.ImmediateResult` | src/visualizations/ChiField/ChiFieldRenderer.worker.ts:209-212 | a wait returns at once, with `not-equal`, exactly when the cell differs from the expected value, on either path |
| `ChiFieldWorker.ResumedResult` | src/visualizations/ChiField/ChiFieldRenderer.worker.ts:209-215 | a suspended wait returns `ok` once notified; unnotified, only the poll fallback returns (timed out); it never returns `not-equal` |
| `ChiFieldWorker.Iterate` | src/visualizations/ChiField/ChiFieldRenderer.worker.ts:202-215 | a stale loop returns; a live loop whose cell changed records it (on `waitAsync`) or enters the yield with `not-equal` (on the fallback); a live loop whose cell is unchanged suspends; no other loop and no token changes |
| `ChiFieldWorker.Wake` | src/visualizations/ChiField/ChiFieldRenderer.worker.ts:209-215 | on `waitAsync` a notified wait records the cell at wake time and an unnotified one stays suspended; on the fallback the wait returns `ok` or, unnotified, `timed-out` into the yield |
| `ChiFieldWorker.Continue` | src/visualizations/ChiField/ChiFieldRenderer.worker.ts:214-220 | back from the fallback's yield, with no token check, a timeout keeps the record and any other result records the current cell |
| `ChiFieldWorker.WakeUp` | src/signalAnalyzer/SignalAnalyzerInst.ts:150 | a notify marks a suspended wait as woken and leaves every other loop state alone |
| `ChiFieldWorker.Notify` | src/signalAnalyzer/SignalAnalyzerInst.ts:150 | a notify wakes every suspended loop, of any generation, and changes nothing else |
| `ChiFieldWorker.NotifyIdempotent` | src/signalAnalyzer/SignalAnalyzerInst.ts:150 | two notifies in a row act like one |
| `ChiFieldWorker.StepsKeepInv` | src/visualizations/ChiField/ChiFieldRenderer.worker.ts:200-220 | iterating, waking and continuing keep the generation invariant and keep every record at -1 or a counter value |
| `ChiFieldWorker.StepsKeepWaiterLive` | src/visualizations/ChiField/ChiFieldRenderer.worker.ts:212 | on the fallback, a loop suspended in the blocking wait stays the live one across every step the worker thread can take |
| `ChiFieldWorker.StartKeepsWaiterLive` | src/visualizations/ChiField/ChiFieldRenderer.worker.ts:183-212 | a start runs only while no blocking wait holds the thread and leaves no loop suspended in one |
| `ChiFieldWorker.NotifyKeepsInv` | src/signalAnalyzer/SignalAnalyzerInst.ts:150 | a notify keeps the generation invariant and whether the worker thread is held |
| `ChiFieldWorker.OnlyLiveLoopWaits` | src/visualizations/ChiField/ChiFieldRenderer.worker.ts:212 | on the fallback, no loop but the live one can be suspended in the blocking wait |
| `ChiFieldWorker.LiveIsNewest` | src/visualizations/ChiField/ChiFieldRenderer.worker.ts:188-189 | the only loop that can be live is the most recently started one |
| `ChiFieldWorker.AtMostOneLive` | src/visualizations/ChiField/ChiFieldRenderer.worker.ts:14-18 | at most one loop keeps iterating |
| `ChiFieldWorker.StartSupersedes` | src/visualizations/ChiField/ChiFieldRenderer.worker.ts:203-206 | after a start the new loop is live, every earlier loop is stale, and a stale loop's next check makes it return |
| `ChiFieldWorker.SupersededWaitRecordsOnce` | src/visualizations/ChiField/ChiFieldRenderer.worker.ts:203-220 | a superseded loop holding a pending `ok` or `not-equal` (notified wait or fallback yield) records the cell once more and then returns at its next check |
| `ChiFieldWorker.OnlyLiveLoopRecords` | src/visualizations/ChiField/ChiFieldRenderer.worker.ts:203-220 | an iteration records only on `waitAsync` and only in the live, newest loop; a wake-up records only a notified `waitAsync` wait; the return from the yield records only a non-timeout result; a loop gets past the token check only while live |
| `ChiFieldWorker.FirstWaitNeverBlocks` | src/visualizations/ChiField/ChiFieldRenderer.worker.ts:200-212 | the sentinel -1 is never a counter value, so a new loop's first wait returns `not-equal` without suspending and the cell is recorded |
| `ChiFieldWorker.NoFrameRecordedTwice` | src/visualizations/ChiField/ChiFieldRenderer.worker.ts:209-220 | once a value is recorded, a wait on the unchanged cell suspends instead of reporting it again |
| `ChiFieldWorker.PathIndependent` | src/visualizations/ChiField/ChiFieldRenderer.worker.ts:209-220 | an iteration or notified wake-up on `waitAsync` ends in the same loops as the same step on the fallback followed by the return from its yield |
| `ChiFieldWorker.PathsDifferOnlyInTimeout` | src/visualizations/ChiField/ChiFieldRenderer.worker.ts:209-219 | an unnotified wait times out only on the fallback, which then keeps the recorded frame; on `waitAsync` it stays suspended |
| `FrameSync.Step` | src/visualizations/ChiField/ChiFieldRenderer.worker.ts:198-220 | worker events leave the whole producer side untouched, and only frames and resumes change the shared region |
| `FrameSync.InitialSystem` | src/signalAnalyzer/SignalAnalyzerInst.ts:65-97 | a session starts exactly when the analyser size is valid, satisfies the system invariant, has no loops and uses the platform's wait path |
| `FrameSync.RunKeepsInv` | src/signalAnalyzer/SignalAnalyzerInst.ts:142-149 | every interleaving preserves the system invariant, including that a blocking fallback wait belongs to the live loop |
| `FrameSync.ReachableKeepsInv` | src/signalAnalyzer/SignalAnalyzerInst.ts:63 | in every state reachable from a fresh session, the counter stays in [0, 100000) and the shared buffer keeps fftSize/2 bytes |
| `FrameSync.WorkerNeverWrites` | src/visualizations/ChiField/ChiFieldRenderer.worker.ts:198-220 | any interleaving of worker events leaves the shared buffer, the cell and the producer unchanged |
| `FrameSync.PausedUntilResume` | src/signalAnalyzer/SignalAnalyzerInst.ts:155-160 | after pause, any interleaving without a resume leaves counter, cell and shared buffer unchanged and the analyzer paused |
| `FrameSync.FramesRun` | src/signalAnalyzer/SignalAnalyzerInst.ts:142-152 | k frames of a running producer advance the counter by k modulo 100000 with the cell following it, and the worker sees only a notify |
| `FrameSync.CounterValuesDistinct` | src/signalAnalyzer/SignalAnalyzerInst.ts:142 | within fewer than 100000 frames, publishes carry distinct values |
| `FrameSync.Coalescing` | src/visualizations/ChiField/ChiFieldRenderer.worker.ts:209-220 | a suspended loop whose wait returns after k published frames (and, on the fallback, its yield) records exactly the last published value, and (within 100000 frames) none of the intermediate ones |
| `FrameSync.BlockedWaitStaysLive` | src/visualizations/ChiField/ChiFieldRenderer.worker.ts:212 | on the fallback, until its wait returns, a loop suspended in `Atomics.wait` stays suspended and live whatever the producer does and whatever messages arrive |
| `FrameSync.StaleStep` | src/visualizations/ChiField/ChiFieldRenderer.worker.ts:203-206 | one step of any kind keeps a superseded loop that is at its token check (or has exited) stale, at its check or exited, and keeps its record |
| `FrameSync.SupersededLoopSilent` | src/visualizations/ChiField/ChiFieldRenderer.worker.ts:203-206 | across any interleaving, a superseded loop that is neither in a wait nor in the yield after one never waits or records again |
| `ChiFieldTypes.EnumValue` | src/visualizations/ChiField/types.ts:1-6 | each window type's numeric value is one of the four 0..3 and names that type back |
| `ChiFieldTypes.FromEnumValue` | src/visualizations/ChiField/types.ts:1-6 | a number names a window type exactly when it is 0, 1, 2 or 3 |
| `ChiFieldTypes.EnumValuesDistinct` | src/visualizations/ChiField/types.ts:1-6 | the enum values lie in 0..3 and distinct members have distinct values |
| `ChiFieldTypes.EnumRoundTrip` | src/visualizations/ChiField/types.ts:1-6 | looking a member up by its value returns it, and a value that names a member is that member's value |
| `ChiFieldTypes.BuildDefault` | src/visualizations/ChiField/types.ts:31-45 | the default window is Seconds (value 1) of length 2; the per-type memory covers all four types (Beats 4, Samples 44100, Wavelengths 2) and agrees with the window; not frozen, frame-by-frame, no MIDI snapping |

## Left out

- WebGPU setup, shaders, the pipeline, resizing and `render` in the worker: graphics API plumbing. The loop never calls `render` anyway.
- The Web Audio graph: the `AudioContext`, the analyser's dB range and smoothing, the `AudioWorkletNode` options, gain wiring, and the AWP message handler. These are foreign APIs. The analyser's output is an opaque byte sequence handed to each frame, and the graph calls of `init` and `destroy` are recorded only as a list of effects.
- SignalAnalyzer.Construct: fails only for an unsupported analyser size. Setting the dB range (src/signalAnalyzer/SignalAnalyzerInst.ts:70-71) can also throw `IndexSizeError`: `minDecibels` is set while `maxDecibels` still holds its default of -30, so a stored lower bound of -30 or more makes construction fail. Setting `smoothingTimeConstant` (src/signalAnalyzer/SignalAnalyzerInst.ts:72) throws `IndexSizeError` for a value outside [0, 1]. Neither the dB range nor the smoothing is part of the model.
- The oscilloscope's pause/resume calls and the line-spectrogram and ChiField `start`/`stop` calls inside `pause`/`resume`. The latter are empty, and the oscilloscope is not part of this model.
- Real blocking, memory ordering, and timing. Each producer tick and each loop step is one atomic event; the fallback's blocking wait is modelled only by which worker events it excludes.
- The microtask yields on the `waitAsync` path (`await` of the wait result). Only other microtasks can run there, never a message handler, so the model treats the wait result and its handling as one step. The fallback's `setTimeout` yield is a macrotask yield and is modelled (`Continue`).
- Torn reads of the shared byte buffer: a tick is atomic, so mid-copy reads are not modelled. `WriteBeforePublish` covers the ordering of the two writes.
- The random run token (`Math.random`) is replaced by a fresh generation number. The random version could, with negligible probability, repeat a token; that case is not modelled.
- The `console.warn`/`console.log` diagnostics, except the "already destroyed" warning, which is kept as an effect.
- `serialize`, svelte stores, `buildDefaultSignalAnalyzerInstState`, the worklet-module and WASM `AsyncOnce` loaders: I/O and framework glue.
- ChiField.ts, LineSpectrogram.ts and AddNode.ts: thin `postMessage`/`terminate` wrappers and graph wiring. Their only logic, the integer `dpr` check, is not modelled.
- Consumers other than the ChiField worker (the line-spectrogram worker is not part of this model). The system composes one worker, which may run any number of loops.

=== FILE: chi_field_types.dfy ===
/**
  The ChiField visualisation's window types and its default UI state
  (src/visualizations/ChiField/types.ts).
 */
module ChiFieldTypes {
  import opened Common

  /** How the length of the ChiField time window is measured. */
  datatype WindowType = Beats | Seconds | Samples | Wavelengths

  /** The numeric value of each member of the TypeScript enum. */
  function EnumValue(t: WindowType): (v: int)
    ensures 0 <= v < |AllWindowTypes|
    ensures FromEnumValue(v) == Some(t)
  {
    match t
    case Beats => 0
    case Seconds => 1
    case Samples => 2
    case Wavelengths => 3
  }

  /** Reverse lookup of the enum: the member whose value is `v`, if there is one. */
  function FromEnumValue(v: int): (r: Option<WindowType>)
    ensures r.Some? <==> 0 <= v < 4
  {
    if v == 0 then Some(Beats)
    else if v == 1 then Some(Seconds)
    else if v == 2 then Some(Samples)
    else if v == 3 then Some(Wavelengths)
    else None
  }

  /** Every member of the enum. */
  const AllWindowTypes: set<WindowType> := {Beats, Seconds, Samples, Wavelengths}

  /** The enum values are exactly 0, 1, 2 and 3, one per member. */
  lemma EnumValuesDistinct(a: WindowType, b: WindowType)
    ensures 0 <= EnumValue(a) < 4
    ensures EnumValue(a) == EnumValue(b) <==> a == b
  {
  }

  /** Looking a member up by its value gives the member back, and every value that
      names a member is that member's value. */
  lemma EnumRoundTrip(t: WindowType, v: int)
    ensures FromEnumValue(EnumValue(t)) == Some(t)
    ensures FromEnumValue(v).Some? ==> EnumValue(FromEnumValue(v).value) == v
  {
  }

  /** A window: its measuring unit and its length in that unit. */
  datatype Window = Window(kind: WindowType, value: real)

  /** The ChiField UI state; `lastValueByWindowType` remembers, per unit, the last length used. */
  datatype UIState = UIState(
    window: Window,
    lastValueByWindowType: map<WindowType, real>,
    frozen: bool,
    frameByFrame: bool,
    snapF0ToMIDI: bool)

  /** The per-unit memory is a total record over the enum, and it agrees with the
      current window on the current window's unit. */
  predicate Consistent(s: UIState)
  {
    && s.lastValueByWindowType.Keys == AllWindowTypes
    && s.window.kind in s.lastValueByWindowType
    && s.lastValueByWindowType[s.window.kind] == s.window.value
  }

  /** The state a fresh ChiField starts from. */
  function BuildDefault(): (s: UIState)
    ensures Consistent(s)
    ensures s.window.kind == Seconds && EnumValue(s.window.kind) == 1
    ensures s.window.value == 2.0
    ensures s.lastValueByWindowType[Beats] == 4.0
    ensures s.lastValueByWindowType[Samples] == 44100.0
    ensures s.lastValueByWindowType[Wavelengths] == 2.0
    ensures !s.frozen && s.frameByFrame && !s.snapF0ToMIDI
  {
    UIState(
      Window(Seconds, 2.0),
      map[Beats := 4.0, Seconds := 2.0, Samples := 44100.0, Wavelengths := 2.0],
      false,
      true,
      false)
  }
}

=== FILE: chi_field_worker.dfy ===
/**
  The render-worker side (`ChiFieldRendererWorker` in
  src/visualizations/ChiField/ChiFieldRenderer.worker.ts): `maybeStartAnimationLoop`
  and the wait loops it starts.

  Each started loop is a record of its own: the token it captured, its local
  `lastRenderedFrameIx`, and where it stands in its iteration. The random run token
  becomes a fresh generation number: the number of loops started before it. Which wait
  implementation the loops use is a property of the platform, so it belongs to the
  worker. A loop iteration is split at the points where other work on the worker can
  run in between: `Iterate` checks the token and issues the wait, `Wake` is a suspended
  wait returning, and `Continue` is the poll fallback coming back from its
  `setTimeout` yield to handle the result. Only the value of the notify cell is passed
  in; no operation here returns shared memory.
 */
module ChiFieldWorker {
  import opened Common
  import opened SharedMemory

  /** The two wait implementations: `Atomics.waitAsync` when the platform has it, and
      otherwise `Atomics.wait` with a 5 ms timeout followed by a yield. */
  datatype WaitPath = AsyncWait | PollFallback

  /** The string an `Atomics` wait resolves to. */
  datatype WaitResult = WaitOk | WaitNotEqual | WaitTimedOut

  /** Where a loop stands: about to check its token and wait; suspended in a wait
      (`woken` once a notify has reached it); on the poll fallback, back from the wait
      with result `res` but still in the `setTimeout` yield that precedes handling it;
      or returned for good. */
  datatype Phase = Ready | Blocked(woken: bool) | Yielding(res: WaitResult) | Exited

  datatype RenderLoop = RenderLoop(token: nat, lastRenderedFrameIx: int, phase: Phase)

  /** The worker's fields that the loops depend on. The two `has…View` flags stand for the
      shared views being non-null; `path` is the wait implementation the platform
      offers. */
  datatype Worker = Worker(
    path: WaitPath,
    running: bool,
    hasNotifyView: bool,
    hasFrequencyView: bool,
    runToken: Option<nat>,
    loops: seq<RenderLoop>)

  /** A freshly constructed worker: running, no views yet, no run token, no loops. */
  function NewWorker(path: WaitPath): (w: Worker)
    ensures WorkerInv(w) && w.running && |w.loops| == 0 && w.path == path
    ensures !w.hasNotifyView && !w.hasFrequencyView
  {
    Worker(path, true, false, false, None, [])
  }

  /** The `init` message: both shared views are set (the graphics setup that follows is
      not modelled). */
  function HandleInit(w: Worker): (r: Worker)
    ensures r.hasNotifyView && r.hasFrequencyView
    ensures r.running == w.running && r.runToken == w.runToken && r.loops == w.loops
    ensures r.path == w.path
  {
    w.(hasNotifyView := true, hasFrequencyView := true)
  }

  /** The start guard of `maybeStartAnimationLoop`. */
  predicate CanStart(w: Worker)
  {
    w.running && w.hasNotifyView && w.hasFrequencyView
  }

  /** Tokens are generations: loop `i` captured token `i`, and the current run token is
      the token of the most recently started loop. Every `lastRenderedFrameIx` is the
      sentinel -1 or a counter value. */
  predicate WorkerInv(w: Worker)
  {
    && (forall i :: 0 <= i < |w.loops| ==> w.loops[i].token == i)
    && (w.runToken.None? <==> |w.loops| == 0)
    && (w.runToken.Some? ==> w.runToken.value == |w.loops| - 1)
    && (forall i :: 0 <= i < |w.loops| ==>
          w.loops[i].lastRenderedFrameIx == -1 || IsFrameIx(w.loops[i].lastRenderedFrameIx))
  }

  /** On the poll fallback, `Atomics.wait` holds the worker thread while it is suspended:
      no message, timer or other loop runs on the worker until it returns. */
  predicate ThreadBlocked(w: Worker)
  {
    w.path == PollFallback && exists i :: 0 <= i < |w.loops| && w.loops[i].phase.Blocked?
  }

  /** `maybeStartAnimationLoop`: unless the guard holds, nothing happens; otherwise a
      fresh token becomes the current one and a loop capturing it starts with
      `lastRenderedFrameIx = -1`. */
  function StartLoop(w: Worker): (r: Worker)
    requires WorkerInv(w)
    ensures WorkerInv(r)
    ensures !CanStart(w) ==> r == w
    ensures CanStart(w) ==>
      && |r.loops| == |w.loops| + 1
      && r.loops[..|w.loops|] == w.loops
      && r.runToken == Some(r.loops[|w.loops|].token)
      && (forall i :: 0 <= i < |w.loops| ==> w.loops[i].token != r.runToken.value)
      && r.loops[|w.loops|] == RenderLoop(|w.loops|, -1, Ready)
    ensures r.path == w.path && r.running == w.running && r.hasNotifyView == w.hasNotifyView
    ensures r.hasFrequencyView == w.hasFrequencyView
  {
    if !CanStart(w) then w
    else
      var token := |w.loops|;
      w.(runToken := Some(token), loops := w.loops + [RenderLoop(token, -1, Ready)])
  }

  /** A loop that has not exited and whose captured token is still the current one. */
  predicate Live(w: Worker, i: nat)
  {
    i < |w.loops| && !w.loops[i].phase.Exited? && w.runToken == Some(w.loops[i].token)
  }

  /** The result handling shared by both wait paths: a timeout keeps the last rendered
      frame, any other result records the value currently in the cell. */
  function HandleResult(lastRendered: int, res: WaitResult, cell: int): (r: int)
    ensures res == WaitTimedOut ==> r == lastRendered
    ensures res != WaitTimedOut ==> r == cell
  {
    if res == WaitTimedOut then lastRendered else cell
  }

  /** What a wait call returns at once, before suspending: `not-equal` when the cell no
      longer holds the expected value, otherwise nothing yet. Both paths agree on it. */
  function ImmediateResult(cell: int, expected: int): (r: Option<WaitResult>)
    ensures r.Some? <==> cell != expected
    ensures r.Some? ==> r.value == WaitNotEqual
  {
    if cell != expected then Some(WaitNotEqual) else None
  }

  /** The result a suspended wait returns when it resumes, if it resumes: `ok` once
      notified; without a notify the poll fallback times out after 5 ms, while
      `waitAsync` (called without a timeout) stays suspended. */
  function ResumedResult(path: WaitPath, woken: bool): (r: Option<WaitResult>)
    ensures woken ==> r == Some(WaitOk)
    ensures !woken ==> (r.Some? <==> path == PollFallback)
    ensures r != Some(WaitNotEqual)
  {
    if woken then Some(WaitOk)
    else if path == PollFallback then Some(WaitTimedOut)
    else None
  }

  /** What a loop does once its wait has produced `res`: on `waitAsync` the result is
      handled right away; on the poll fallback the loop first yields to the event loop. */
  function AfterWait(path: WaitPath, l: RenderLoop, res: WaitResult, cell: int): (r: RenderLoop)
    ensures r.token == l.token
  {
    if path == AsyncWait then
      l.(lastRenderedFrameIx := HandleResult(l.lastRenderedFrameIx, res, cell), phase := Ready)
    else
      l.(phase := Yielding(res))
  }

  /** The top of one loop iteration, on a loop that is `Ready`: a stale token makes the
      loop return; otherwise the wait is issued, and either completes at once with
      `not-equal` or suspends the loop. */
  function Iterate(w: Worker, i: nat, cell: int): (r: Worker)
    requires i < |w.loops|
    ensures |r.loops| == |w.loops|
    ensures r.path == w.path && r.running == w.running && r.runToken == w.runToken
    ensures r.hasNotifyView == w.hasNotifyView && r.hasFrequencyView == w.hasFrequencyView
    ensures forall j :: 0 <= j < |w.loops| && j != i ==> r.loops[j] == w.loops[j]
    ensures r.loops[i].token == w.loops[i].token
    ensures !w.loops[i].phase.Ready? ==> r == w
    ensures w.loops[i].phase.Ready? && !Live(w, i) ==>
      r.loops[i] == w.loops[i].(phase := Exited)
    ensures Live(w, i) && w.loops[i].phase.Ready? && cell != w.loops[i].lastRenderedFrameIx ==>
      r.loops[i] == (if w.path == AsyncWait then w.loops[i].(lastRenderedFrameIx := cell)
                     else w.loops[i].(phase := Yielding(WaitNotEqual)))
    ensures Live(w, i) && w.loops[i].phase.Ready? && cell == w.loops[i].lastRenderedFrameIx ==>
      r.loops[i] == w.loops[i].(phase := Blocked(false))
  {
    var l := w.loops[i];
    if !l.phase.Ready? then w
    else if w.runToken != Some(l.token) then w.(loops := w.loops[i := l.(phase := Exited)])
    else
      match ImmediateResult(cell, l.lastRenderedFrameIx)
      case Some(res) => w.(loops := w.loops[i := AfterWait(w.path, l, res, cell)])
      case None => w.(loops := w.loops[i := l.(phase := Blocked(false))])
  }

  /** A suspended wait of loop `i` resumes, if its path lets it. On `waitAsync` the
      result is handled with the cell value at that moment; on the poll fallback the
      loop moves on to its yield. */
  function Wake(w: Worker, i: nat, cell: int): (r: Worker)
    requires i < |w.loops|
    ensures |r.loops| == |w.loops|
    ensures r.path == w.path && r.running == w.running && r.runToken == w.runToken
    ensures r.hasNotifyView == w.hasNotifyView && r.hasFrequencyView == w.hasFrequencyView
    ensures forall j :: 0 <= j < |w.loops| && j != i ==> r.loops[j] == w.loops[j]
    ensures r.loops[i].token == w.loops[i].token
    ensures !w.loops[i].phase.Blocked? ==> r == w
    ensures w.loops[i].phase == Blocked(true) && w.path == AsyncWait ==>
      r.loops[i] == w.loops[i].(lastRenderedFrameIx := cell, phase := Ready)
    ensures w.loops[i].phase == Blocked(true) && w.path == PollFallback ==>
      r.loops[i] == w.loops[i].(phase := Yielding(WaitOk))
    ensures w.loops[i].phase == Blocked(false) && w.path == PollFallback ==>
      r.loops[i] == w.loops[i].(phase := Yielding(WaitTimedOut))
    ensures w.loops[i].phase == Blocked(false) && w.path == AsyncWait ==> r == w
  {
    var l := w.loops[i];
    if !l.phase.Blocked? then w
    else
      match ResumedResult(w.path, l.phase.woken)
      case Some(res) => w.(loops := w.loops[i := AfterWait(w.path, l, res, cell)])
      case None => w
  }

  /** The poll fallback comes back from `await setTimeout(…, 0)`: a timeout goes round
      again, any other result loads the cell. There is no token check between the yield
      and the load. */
  function Continue(w: Worker, i: nat, cell: int): (r: Worker)
    requires i < |w.loops|
    ensures |r.loops| == |w.loops|
    ensures r.path == w.path && r.running == w.running && r.runToken == w.runToken
    ensures r.hasNotifyView == w.hasNotifyView && r.hasFrequencyView == w.hasFrequencyView
    ensures forall j :: 0 <= j < |w.loops| && j != i ==> r.loops[j] == w.loops[j]
    ensures r.loops[i].token == w.loops[i].token
    ensures !w.loops[i].phase.Yielding? ==> r == w
    ensures w.loops[i].phase == Yielding(WaitTimedOut) ==>
      r.loops[i] == w.loops[i].(phase := Ready)
    ensures w.loops[i].phase.Yielding? && w.loops[i].phase.res != WaitTimedOut ==>
      r.loops[i] == w.loops[i].(lastRenderedFrameIx := cell, phase := Ready)
  {
    var l := w.loops[i];
    if !l.phase.Yielding? then w
    else
      w.(loops := w.loops[i := l.(lastRenderedFrameIx := HandleResult(l.lastRenderedFrameIx, l.phase.res, cell),
                                  phase := Ready)])
  }

  /** How one loop reacts to `Atomics.notify`: a suspended wait is marked woken. */
  function WakeUp(l: RenderLoop): (r: RenderLoop)
    ensures r.token == l.token && r.lastRenderedFrameIx == l.lastRenderedFrameIx
    ensures l.phase.Blocked? ==> r.phase == Blocked(true)
    ensures !l.phase.Blocked? ==> r == l
  {
    if l.phase.Blocked? then l.(phase := Blocked(true)) else l
  }

  /** `Atomics.notify(cell, 0)` without a count wakes every waiter on the cell, whichever
      generation it belongs to. */
  function Notify(w: Worker): (r: Worker)
    ensures |r.loops| == |w.loops|
    ensures r.path == w.path && r.running == w.running && r.runToken == w.runToken
    ensures r.hasNotifyView == w.hasNotifyView && r.hasFrequencyView == w.hasFrequencyView
    ensures forall i :: 0 <= i < |w.loops| ==> r.loops[i] == WakeUp(w.loops[i])
  {
    w.(loops := seq(|w.loops|, i requires 0 <= i < |w.loops| => WakeUp(w.loops[i])))
  }

  /** A second notify before any loop moves adds nothing. */
  lemma NotifyIdempotent(w: Worker)
    ensures Notify(Notify(w)) == Notify(w)
  {
    assert Notify(Notify(w)).loops == Notify(w).loops;
  }

  /** Iterate, Wake and Continue keep the generation invariant, given a cell that holds a
      counter value. */
  lemma StepsKeepInv(w: Worker, i: nat, cell: int)
    requires WorkerInv(w) && i < |w.loops| && IsFrameIx(cell)
    ensures WorkerInv(Iterate(w, i, cell))
    ensures WorkerInv(Wake(w, i, cell))
    ensures WorkerInv(Continue(w, i, cell))
  {
  }

  /** On the poll fallback, a loop suspended in `Atomics.wait` is the live one. */
  predicate WaiterLive(w: Worker)
  {
    w.path == PollFallback ==>
      forall i :: 0 <= i < |w.loops| && w.loops[i].phase.Blocked? ==> Live(w, i)
  }

  /** Iterating and continuing happen only while the blocking wait does not hold the
      thread, and then keep the suspended loop (if any) the live one; a wait returning
      keeps it always. */
  lemma StepsKeepWaiterLive(w: Worker, i: nat, cell: int)
    requires WorkerInv(w) && WaiterLive(w) && i < |w.loops|
    ensures WaiterLive(Wake(w, i, cell))
    ensures !ThreadBlocked(w) ==> WaiterLive(Iterate(w, i, cell))
    ensures !ThreadBlocked(w) ==> WaiterLive(Continue(w, i, cell))
  {
  }

  /** Since the blocking wait holds the thread, no start can supersede a loop suspended
      in it: a start runs only while no loop is suspended there, and leaves none. */
  lemma StartKeepsWaiterLive(w: Worker)
    requires WorkerInv(w) && WaiterLive(w) && !ThreadBlocked(w)
    ensures WaiterLive(StartLoop(w)) && !ThreadBlocked(StartLoop(w))
  {
  }

  /** A notify changes no token and no record, and only marks suspended waits woken. */
  lemma NotifyKeepsInv(w: Worker)
    requires WorkerInv(w) && WaiterLive(w)
    ensures WorkerInv(Notify(w)) && WaiterLive(Notify(w))
    ensures ThreadBlocked(Notify(w)) == ThreadBlocked(w)
  {
    var r := Notify(w);
    if ThreadBlocked(w) {
      var i :| 0 <= i < |w.loops| && w.loops[i].phase.Blocked?;
      assert r.loops[i].phase.Blocked?;
    }
    if ThreadBlocked(r) {
      var i :| 0 <= i < |r.loops| && r.loops[i].phase.Blocked?;
      assert w.loops[i].phase.Blocked?;
    }
  }

  /** On the poll fallback, the live loop is the only one that can be suspended in the
      blocking wait. */
  lemma OnlyLiveLoopWaits(w: Worker, i: nat)
    requires WorkerInv(w) && WaiterLive(w) && w.path == PollFallback && Live(w, i)
    ensures forall j :: 0 <= j < |w.loops| && w.loops[j].phase.Blocked? ==> j == i
  {
    forall j | 0 <= j < |w.loops| && w.loops[j].phase.Blocked?
      ensures j == i
    {
      LiveIsNewest(w, i);
      LiveIsNewest(w, j);
    }
  }

  /** Under the invariant, the live loop, if any, is the most recently started one. */
  lemma LiveIsNewest(w: Worker, i: nat)
    requires WorkerInv(w)
    ensures Live(w, i) ==> i == |w.loops| - 1
  {
  }

  /** At most one loop keeps iterating. */
  lemma AtMostOneLive(w: Worker, i: nat, j: nat)
    requires WorkerInv(w)
    requires Live(w, i) && Live(w, j)
    ensures i == j
  {
    LiveIsNewest(w, i);
    LiveIsNewest(w, j);
  }

  /** After a successful start, the new loop is the only live one: every loop started
      earlier is stale, and on its next iteration check it returns without recording
      anything. */
  lemma StartSupersedes(w: Worker, i: nat, cell: int)
    requires WorkerInv(w) && CanStart(w) && i < |w.loops|
    ensures var r := StartLoop(w);
            && Live(r, |w.loops|)
            && !Live(r, i)
            && (r.loops[i].phase.Ready? ==>
                  Iterate(r, i, cell).loops[i] == r.loops[i].(phase := Exited))
  {
  }

  /** A loop superseded while its wait has a result coming (a woken wait, or a poll
      fallback yield after `ok` or `not-equal`) records the cell once more, into its own
      local variable, when it gets to the load, and then returns at its next token
      check. */
  lemma SupersededWaitRecordsOnce(w: Worker, i: nat, cell: int, next: int)
    requires WorkerInv(w) && i < |w.loops| && !Live(w, i)
    requires w.loops[i].phase == Blocked(true)
          || (w.loops[i].phase.Yielding? && w.loops[i].phase.res != WaitTimedOut)
    ensures var w1 := Continue(Wake(w, i, cell), i, cell);
            && w1.loops[i] == w.loops[i].(lastRenderedFrameIx := cell, phase := Ready)
            && Iterate(w1, i, next).loops[i] == w1.loops[i].(phase := Exited)
  {
  }

  /** Where frames get recorded. An iteration records only on `waitAsync` and only in the
      live loop; a wake-up records only on `waitAsync` and only a notified wait; the
      return from the fallback's yield records only a loop in that yield. A loop enters a
      wait (or the yield after one) only from a token check it passed. */
  lemma OnlyLiveLoopRecords(w: Worker, i: nat, cell: int)
    requires WorkerInv(w) && i < |w.loops|
    ensures Iterate(w, i, cell).loops[i].lastRenderedFrameIx != w.loops[i].lastRenderedFrameIx ==>
      Live(w, i) && i == |w.loops| - 1 && w.path == AsyncWait
    ensures Wake(w, i, cell).loops[i].lastRenderedFrameIx != w.loops[i].lastRenderedFrameIx ==>
      w.loops[i].phase == Blocked(true) && w.path == AsyncWait
    ensures Continue(w, i, cell).loops[i].lastRenderedFrameIx != w.loops[i].lastRenderedFrameIx ==>
      w.loops[i].phase.Yielding? && w.loops[i].phase.res != WaitTimedOut
    ensures w.loops[i].phase.Ready? && !Iterate(w, i, cell).loops[i].phase.Exited? ==>
      Live(w, i)
  {
  }

  /** The sentinel -1 is never a counter value, so the first wait of a new loop never
      blocks: it returns `not-equal` and the current cell is recorded (on the poll
      fallback after its yield). */
  lemma FirstWaitNeverBlocks(w: Worker, cell: int)
    requires WorkerInv(w) && CanStart(w) && IsFrameIx(cell)
    ensures var r := StartLoop(w);
            var n := |w.loops|;
            var r1 := Iterate(r, n, cell);
            && ImmediateResult(cell, r.loops[n].lastRenderedFrameIx) == Some(WaitNotEqual)
            && !r1.loops[n].phase.Blocked?
            && Continue(r1, n, cell).loops[n] == RenderLoop(n, cell, Ready)
  {
  }

  /** A value once recorded is never reported as new again: with the cell unchanged, the
      next wait suspends instead of returning. */
  lemma NoFrameRecordedTwice(w: Worker, i: nat, cell: int)
    requires i < |w.loops| && Live(w, i) && w.loops[i].phase.Ready?
    requires w.loops[i].lastRenderedFrameIx == cell
    ensures ImmediateResult(cell, w.loops[i].lastRenderedFrameIx).None?
    ensures Iterate(w, i, cell).loops[i].phase == Blocked(false)
    ensures Iterate(w, i, cell).loops[i].lastRenderedFrameIx == cell
  {
  }

  /** Both wait paths feed the same result handling: for a loop that is not in the
      fallback's yield, an iteration on `waitAsync` leaves the loops exactly as an
      iteration on the poll fallback followed by the return from its yield (with the
      same cell value), and likewise for the wake-up of a notified wait. */
  lemma PathIndependent(w: Worker, i: nat, cell: int)
    requires i < |w.loops| && !w.loops[i].phase.Yielding?
    ensures var wa := w.(path := AsyncWait);
            var wf := w.(path := PollFallback);
            && Continue(Iterate(wf, i, cell), i, cell).loops == Iterate(wa, i, cell).loops
            && (w.loops[i].phase == Blocked(true) ==>
                  Continue(Wake(wf, i, cell), i, cell).loops == Wake(wa, i, cell).loops)
  {
  }

  /** The paths differ only in the timeout: a suspended wait that no notify reached
      returns `timed-out` on the poll fallback, which leaves the recorded frame alone,
      and never returns on `waitAsync`. */
  lemma PathsDifferOnlyInTimeout(w: Worker, i: nat, cell: int)
    requires i < |w.loops| && w.loops[i].phase == Blocked(false)
    ensures w.path == PollFallback ==>
      && ResumedResult(PollFallback, false) == Some(WaitTimedOut)
      && Continue(Wake(w, i, cell), i, cell).loops[i] == w.loops[i].(phase := Ready)
    ensures w.path == AsyncWait ==> Wake(w, i, cell) == w
  {
  }
}

=== FILE: common.dfy ===
/** The `Option` and `Result` datatypes the modules share. */
module Common {

  /** A value that may be absent. */
  datatype Option<T> = None | Some(value: T)

  /** The outcome of an operation that can throw: a value or the error it throws. */
  datatype Result<T, E> = Success(value: T) | Failure(error: E)
}

=== FILE: frame_sync.dfy ===
/**
  The producer and one ChiField render worker sharing one frame region, run as a
  sequential state machine: each event is one atomic step of one side, and an
  interleaving is a finite sequence of events.
 */
module FrameSync {
  import opened Common
  import opened SharedMemory
  import SignalAnalyzer
  import ChiFieldWorker

  datatype System = System(session: SignalAnalyzer.Session, worker: ChiFieldWorker.Worker)

  /** One step of either side. Frames and `resume` carry the analyser's magnitudes. */
  datatype Event =
    | AnimationFrame(spectrum: seq<byte>)
    | AnalyzerPause
    | AnalyzerResume(spectrum: seq<byte>)
    | AnalyzerInit
    | AnalyzerDestroy
    | WorkerInit
    | WorkerStart
    | LoopIterate(loop: nat)
    | LoopWake(loop: nat)
    | LoopContinue(loop: nat)

  predicate IsProducerEvent(e: Event)
  {
    e.AnimationFrame? || e.AnalyzerPause? || e.AnalyzerResume? || e.AnalyzerInit? || e.AnalyzerDestroy?
  }

  /** A producer tick; its notify reaches the worker's suspended waits. */
  function AfterTick(s: System, t: SignalAnalyzer.Tick): System
  {
    System(t.session, if t.published then ChiFieldWorker.Notify(s.worker) else s.worker)
  }

  /** One event. Worker events see only the cell's current value; an event naming a loop
      that was never started does nothing. While a poll-fallback wait holds the worker
      thread, the only worker event that can happen is that wait returning. */
  function Step(s: System, e: Event): (r: System)
    requires SignalAnalyzer.Shaped(s.session)
    ensures SignalAnalyzer.Shaped(r.session)
    ensures !IsProducerEvent(e) ==> r.session == s.session
    ensures r.session.mem != s.session.mem ==> e.AnimationFrame? || e.AnalyzerResume?
  {
    match e
    case AnimationFrame(spectrum) => AfterTick(s, SignalAnalyzer.FireFrame(s.session, spectrum))
    case AnalyzerPause => s.(session := SignalAnalyzer.Pause(s.session))
    case AnalyzerResume(spectrum) => AfterTick(s, SignalAnalyzer.Resume(s.session, spectrum))
    case AnalyzerInit => s.(session := SignalAnalyzer.Init(s.session).0)
    case AnalyzerDestroy => s.(session := SignalAnalyzer.Destroy(s.session).0)
    case LoopWake(i) =>
      if i < |s.worker.loops| then s.(worker := ChiFieldWorker.Wake(s.worker, i, s.session.mem.cell)) else s
    case _ =>
      if ChiFieldWorker.ThreadBlocked(s.worker) then s
      else WorkerTask(s, e)
  }

  /** A worker event that needs the worker thread: a message or a loop continuation. */
  function WorkerTask(s: System, e: Event): (r: System)
    requires !IsProducerEvent(e) && !e.LoopWake?
    ensures r.session == s.session
  {
    match e
    case WorkerInit => s.(worker := ChiFieldWorker.HandleInit(s.worker))
    case WorkerStart =>
      if ChiFieldWorker.WorkerInv(s.worker) then s.(worker := ChiFieldWorker.StartLoop(s.worker)) else s
    case LoopIterate(i) =>
      if i < |s.worker.loops| then s.(worker := ChiFieldWorker.Iterate(s.worker, i, s.session.mem.cell)) else s
    case LoopContinue(i) =>
      if i < |s.worker.loops| then s.(worker := ChiFieldWorker.Continue(s.worker, i, s.session.mem.cell)) else s
  }

  /** An interleaving, run from left to right. */
  function Run(s: System, events: seq<Event>): (r: System)
    requires SignalAnalyzer.Shaped(s.session)
    ensures SignalAnalyzer.Shaped(r.session)
    decreases |events|
  {
    if |events| == 0 then s else Run(Step(s, events[0]), events[1..])
  }

  /** The whole system's invariant, for an analyser of size `fftSize`. */
  predicate SysInv(s: System, fftSize: int)
  {
    && SignalAnalyzer.Inv(s.session, fftSize)
    && ChiFieldWorker.WorkerInv(s.worker)
    && ChiFieldWorker.WaiterLive(s.worker)
  }

  /** Where every interleaving starts: a freshly constructed analyser and worker. */
  function InitialSystem(fftSize: int, path: ChiFieldWorker.WaitPath): (r: Result<System, SignalAnalyzer.ConstructError>)
    ensures r.Success? <==> SignalAnalyzer.ValidFftSize(fftSize)
    ensures r.Success? ==> SysInv(r.value, fftSize) && |r.value.worker.loops| == 0
    ensures r.Success? ==> r.value.worker.path == path
  {
    match SignalAnalyzer.Construct(fftSize)
    case Success(session) => Success(System(session, ChiFieldWorker.NewWorker(path)))
    case Failure(err) => Failure(err)
  }

  lemma StepKeepsInv(s: System, e: Event, fftSize: int)
    requires SysInv(s, fftSize)
    ensures SysInv(Step(s, e), fftSize)
  {
    var cell := s.session.mem.cell;
    match e
    case LoopIterate(i) =>
      if i < |s.worker.loops| { WorkerStepKeepsInv(s.worker, i, cell); }
    case LoopWake(i) =>
      if i < |s.worker.loops| { WorkerStepKeepsInv(s.worker, i, cell); }
    case LoopContinue(i) =>
      if i < |s.worker.loops| { WorkerStepKeepsInv(s.worker, i, cell); }
    case WorkerStart =>
      if !ChiFieldWorker.ThreadBlocked(s.worker) { ChiFieldWorker.StartKeepsWaiterLive(s.worker); }
    case AnimationFrame(_) =>
      ChiFieldWorker.NotifyKeepsInv(s.worker);
    case AnalyzerResume(_) =>
      ChiFieldWorker.NotifyKeepsInv(s.worker);
    case _ =>
  }

  /** Both worker invariants across one step of loop `i`. */
  lemma WorkerStepKeepsInv(w: ChiFieldWorker.Worker, i: nat, cell: int)
    requires ChiFieldWorker.WorkerInv(w) && ChiFieldWorker.WaiterLive(w) && IsFrameIx(cell)
    requires i < |w.loops|
    ensures ChiFieldWorker.WorkerInv(ChiFieldWorker.Wake(w, i, cell))
    ensures ChiFieldWorker.WaiterLive(ChiFieldWorker.Wake(w, i, cell))
    ensures !ChiFieldWorker.ThreadBlocked(w) ==>
      && ChiFieldWorker.WorkerInv(ChiFieldWorker.Iterate(w, i, cell))
      && ChiFieldWorker.WaiterLive(ChiFieldWorker.Iterate(w, i, cell))
      && ChiFieldWorker.WorkerInv(ChiFieldWorker.Continue(w, i, cell))
      && ChiFieldWorker.WaiterLive(ChiFieldWorker.Continue(w, i, cell))
  {
    ChiFieldWorker.StepsKeepInv(w, i, cell);
    ChiFieldWorker.StepsKeepWaiterLive(w, i, cell);
  }

  /** Every interleaving keeps the invariant: the counter stays in [0, 100000) and equal
      to the cell, the buffers keep their length, the generations stay consistent. */
  lemma {:induction false} RunKeepsInv(s: System, events: seq<Event>, fftSize: int)
    requires SysInv(s, fftSize)
    ensures SysInv(Run(s, events), fftSize)
    decreases |events|
  {
    if |events| > 0 {
      StepKeepsInv(s, events[0], fftSize);
      RunKeepsInv(Step(s, events[0]), events[1..], fftSize);
    }
  }

  /** Everything reachable from a fresh system satisfies the invariant. */
  lemma ReachableKeepsInv(fftSize: int, path: ChiFieldWorker.WaitPath, events: seq<Event>)
    requires SignalAnalyzer.ValidFftSize(fftSize)
    ensures var s := InitialSystem(fftSize, path).value;
            && SysInv(Run(s, events), fftSize)
            && IsFrameIx(Run(s, events).session.analyzer.frameIx)
            && |Run(s, events).session.mem.magnitudes| == fftSize / 2
  {
    RunKeepsInv(InitialSystem(fftSize, path).value, events, fftSize);
  }

  /** The worker only reads: an interleaving of worker events leaves the shared buffer,
      the cell and the whole producer untouched. */
  lemma {:induction false} WorkerNeverWrites(s: System, events: seq<Event>)
    requires SignalAnalyzer.Shaped(s.session)
    requires forall k :: 0 <= k < |events| ==> !IsProducerEvent(events[k])
    ensures Run(s, events).session == s.session
    decreases |events|
  {
    if |events| > 0 {
      WorkerNeverWrites(Step(s, events[0]), events[1..]);
    }
  }

  /** After `pause`, no frame publishes until `resume`: any interleaving without a resume
      leaves the counter, the cell and the shared buffer as they were. */
  lemma {:induction false} PausedUntilResume(s: System, events: seq<Event>)
    requires SignalAnalyzer.Shaped(s.session) && !s.session.analyzer.running
    requires forall k :: 0 <= k < |events| ==> !events[k].AnalyzerResume?
    ensures Run(s, events).session.mem == s.session.mem
    ensures Run(s, events).session.analyzer.frameIx == s.session.analyzer.frameIx
    ensures !Run(s, events).session.analyzer.running
    decreases |events|
  {
    if |events| > 0 {
      PausedUntilResume(Step(s, events[0]), events[1..]);
    }
  }

  /** The events of `k` animation frames, one per snapshot. */
  function Frames(spectra: seq<seq<byte>>): (r: seq<Event>)
  {
    seq(|spectra|, k requires 0 <= k < |spectra| => AnimationFrame(spectra[k]))
  }

  /** `k` frames of a running producer: the counter advances by `k` modulo the bound, the
      cell follows it, and the worker has received a notify (if `k > 0`) and nothing else. */
  lemma {:induction false} FramesRun(s: System, spectra: seq<seq<byte>>, fftSize: int)
    requires SysInv(s, fftSize)
    requires s.session.analyzer.running && s.session.analyzer.pendingFrames > 0
    ensures var r := Run(s, Frames(spectra));
            && SysInv(r, fftSize)
            && r.session.analyzer.running
            && r.session.analyzer.pendingFrames == s.session.analyzer.pendingFrames
            && r.session.analyzer.frameIx == SignalAnalyzer.FrameAfter(s.session.analyzer.frameIx, |spectra|)
            && r.session.mem.cell == r.session.analyzer.frameIx
            && r.worker == (if |spectra| == 0 then s.worker else ChiFieldWorker.Notify(s.worker))
    decreases |spectra|
  {
    if |spectra| > 0 {
      var events := Frames(spectra);
      var s1 := Step(s, events[0]);
      assert events[1..] == Frames(spectra[1..]);
      assert s1.worker == ChiFieldWorker.Notify(s.worker);
      StepKeepsInv(s, events[0], fftSize);
      FramesRun(s1, spectra[1..], fftSize);
      ChiFieldWorker.NotifyIdempotent(s.worker);
      SignalAnalyzer.NextFrameAfter(s.session.analyzer.frameIx, 0);
      SignalAnalyzer.FramesCompose(s.session.analyzer.frameIx, 1, |spectra| - 1);
    }
  }

  /** Distinct publishes within one wrap-around period carry distinct values. */
  lemma CounterValuesDistinct(f: int, j: nat, k: nat)
    requires IsFrameIx(f) && j < k <= j + FrameWrap - 1
    ensures SignalAnalyzer.FrameAfter(f, j) != SignalAnalyzer.FrameAfter(f, k)
  {
  }

  /** The worker events that bring a notified wait of loop `i` back to handling its
      result: the wait returning, and on the poll fallback also the return from the yield
      that follows it. */
  function WaitReturns(path: ChiFieldWorker.WaitPath, i: nat): (r: seq<Event>)
  {
    if path == ChiFieldWorker.AsyncWait then [LoopWake(i)] else [LoopWake(i), LoopContinue(i)]
  }

  /** Coalescing: a loop suspended on the cell, then `k >= 1` published frames, then the
      loop's wait returns and its result is handled. The loop records exactly the last
      published value, which (when at most 100000 frames went by) differs from every
      intermediate one. */
  lemma Coalescing(s: System, spectra: seq<seq<byte>>, i: nat, fftSize: int)
    requires SysInv(s, fftSize)
    requires s.session.analyzer.running && s.session.analyzer.pendingFrames > 0
    requires i < |s.worker.loops| && s.worker.loops[i].phase.Blocked?
    requires |spectra| > 0
    ensures var r := Run(s, Frames(spectra) + WaitReturns(s.worker.path, i));
            var f := s.session.analyzer.frameIx;
            var last := SignalAnalyzer.FrameAfter(f, |spectra|);
            && i < |r.worker.loops|
            && r.worker.loops[i].lastRenderedFrameIx == last
            && r.worker.loops[i].phase.Ready?
            && r.session.mem.cell == last
            && (|spectra| <= FrameWrap ==>
                  forall j :: 1 <= j < |spectra| ==>
                    r.worker.loops[i].lastRenderedFrameIx != SignalAnalyzer.FrameAfter(f, j))
  {
    var f := s.session.analyzer.frameIx;
    var tail := WaitReturns(s.worker.path, i);
    RunAppend(s, Frames(spectra), tail);
    FramesRun(s, spectra, fftSize);
    var mid := Run(s, Frames(spectra));
    assert mid.worker.loops[i].phase == ChiFieldWorker.Blocked(true);
    var woken := Step(mid, LoopWake(i));
    assert Run(mid, tail) == Run(woken, tail[1..]);
    if s.worker.path == ChiFieldWorker.PollFallback {
      assert woken.worker.loops[i].phase == ChiFieldWorker.Yielding(ChiFieldWorker.WaitOk);
      ChiFieldWorker.OnlyLiveLoopWaits(mid.worker, i);
      assert !ChiFieldWorker.ThreadBlocked(woken.worker);
      assert Run(woken, tail[1..]) == Step(woken, LoopContinue(i));
    }
    forall j | 1 <= j < |spectra| && |spectra| <= FrameWrap
      ensures SignalAnalyzer.FrameAfter(f, |spectra|) != SignalAnalyzer.FrameAfter(f, j)
    {
      CounterValuesDistinct(f, j, |spectra|);
    }
  }

  /** On the poll fallback, a loop suspended in `Atomics.wait` cannot be superseded: until
      that wait returns, whatever the producer does and whatever messages arrive, the
      loop stays suspended and live. */
  lemma {:induction false} BlockedWaitStaysLive(s: System, events: seq<Event>, i: nat, fftSize: int)
    requires SysInv(s, fftSize) && s.worker.path == ChiFieldWorker.PollFallback
    requires i < |s.worker.loops| && s.worker.loops[i].phase.Blocked?
    requires forall k :: 0 <= k < |events| ==> events[k] != LoopWake(i)
    ensures var r := Run(s, events);
            && i < |r.worker.loops|
            && r.worker.loops[i].phase.Blocked?
            && ChiFieldWorker.Live(r.worker, i)
    decreases |events|
  {
    if |events| > 0 {
      var e := events[0];
      var s1 := Step(s, e);
      StepKeepsInv(s, e, fftSize);
      assert ChiFieldWorker.ThreadBlocked(s.worker);
      ChiFieldWorker.OnlyLiveLoopWaits(s.worker, i);
      assert s1.worker.loops[i].phase.Blocked?;
      BlockedWaitStaysLive(s1, events[1..], i, fftSize);
    } else {
      assert Run(s, events) == s;
    }
  }

  /** Running two interleavings back to back is running their concatenation. */
  lemma {:induction false} RunAppend(s: System, a: seq<Event>, b: seq<Event>)
    requires SignalAnalyzer.Shaped(s.session)
    ensures Run(s, a + b) == Run(Run(s, a), b)
    decreases |a|
  {
    if |a| > 0 {
      assert (a + b)[0] == a[0];
      assert (a + b)[1..] == a[1..] + b;
      RunAppend(Step(s, a[0]), a[1..], b);
      assert Run(s, a + b) == Run(Step(s, a[0]), a[1..] + b);
    } else {
      assert a + b == b;
    }
  }

  /** Stale-loop silence in any interleaving: once a superseded loop is neither suspended
      in a wait nor in the fallback's yield after one (from either, a result it obtained
      while live may still be recorded once), it never waits or records a frame again,
      whatever the interleaving. */
  lemma {:induction false} SupersededLoopSilent(s: System, events: seq<Event>, i: nat, fftSize: int)
    requires SysInv(s, fftSize)
    requires i < |s.worker.loops| && !ChiFieldWorker.Live(s.worker, i)
    requires s.worker.loops[i].phase.Ready? || s.worker.loops[i].phase.Exited?
    ensures var r := Run(s, events);
            && i < |r.worker.loops|
            && !ChiFieldWorker.Live(r.worker, i)
            && (r.worker.loops[i].phase.Ready? || r.worker.loops[i].phase.Exited?)
            && r.worker.loops[i].token == s.worker.loops[i].token
            && r.worker.loops[i].lastRenderedFrameIx == s.worker.loops[i].lastRenderedFrameIx
    decreases |events|
  {
    if |events| > 0 {
      var s1 := Step(s, events[0]);
      StepKeepsInv(s, events[0], fftSize);
      StaleStep(s, events[0], i, fftSize);
      SupersededLoopSilent(s1, events[1..], i, fftSize);
    }
  }

  /** One step of the above. */
  lemma StaleStep(s: System, e: Event, i: nat, fftSize: int)
    requires SysInv(s, fftSize)
    requires i < |s.worker.loops| && !ChiFieldWorker.Live(s.worker, i)
    requires s.worker.loops[i].phase.Ready? || s.worker.loops[i].phase.Exited?
    ensures var r := Step(s, e);
            && i < |r.worker.loops|
            && !ChiFieldWorker.Live(r.worker, i)
            && (r.worker.loops[i].phase.Ready? || r.worker.loops[i].phase.Exited?)
            && r.worker.loops[i].token == s.worker.loops[i].token
            && r.worker.loops[i].lastRenderedFrameIx == s.worker.loops[i].lastRenderedFrameIx
  {
    match e
    case LoopIterate(j) =>
      if j < |s.worker.loops| { ChiFieldWorker.OnlyLiveLoopRecords(s.worker, j, s.session.mem.cell); }
    case _ =>
  }
}

=== FILE: shared_memory.dfy ===
/**
  The memory the audio side shares with the render workers: a byte view over the
  frequency-data buffer and a one-element Int32 view used as the notify cell,
  together with the JavaScript arithmetic and typed-array operations that act on them.
 */
module SharedMemory {

  newtype byte = b: int | 0 <= b < 256

  /** The frame counter wraps around at this bound. */
  const FrameWrap: int := 100000

  const TwoTo31: int := 0x8000_0000
  const TwoTo32: int := 0x1_0000_0000

  /** A value the frame counter can hold. */
  predicate IsFrameIx(v: int)
  {
    0 <= v < FrameWrap
  }

  /** JavaScript's `%`: the remainder of a division truncated toward zero, so it takes
      the sign of the dividend (unlike Dafny's Euclidean `%`). */
  function JsRem(a: int, n: int): (r: int)
    requires n > 0
    ensures -n < r < n
    ensures a >= 0 ==> r >= 0
    ensures a < 0 ==> r <= 0
    ensures a >= 0 ==> r == a % n
  {
    if a >= 0 then a % n else -((-a) % n)
  }

  /** The counter value that follows `ix`: `(ix + 1) % 100_000`. */
  function NextFrameIx(ix: int): (r: int)
    ensures IsFrameIx(ix) ==> IsFrameIx(r) && r != ix
    ensures IsFrameIx(ix) && ix + 1 < FrameWrap ==> r == ix + 1
    ensures ix == FrameWrap - 1 ==> r == 0
  {
    JsRem(ix + 1, FrameWrap)
  }

  /** The conversion an `Int32Array` store applies to a number: wrap modulo 2^32 into
      the signed range. */
  function ToInt32(v: int): (r: int)
    ensures -TwoTo31 <= r < TwoTo31
    ensures (v - r) % TwoTo32 == 0
    ensures -TwoTo31 <= v < TwoTo31 ==> r == v
  {
    (v + TwoTo31) % TwoTo32 - TwoTo31
  }

  /** Every counter value is stored into the Int32 cell unchanged. */
  lemma FrameIxFitsInt32(v: int)
    requires IsFrameIx(v)
    ensures ToInt32(v) == v
  {
  }

  /** The shared region: the latest magnitude snapshot and the notify cell. */
  datatype SharedFrame = SharedFrame(magnitudes: seq<byte>, cell: int)

  /** `target.set(src)` on a typed array: overwrites the first `|src|` elements and keeps
      the rest; the source demands `src` fit (a longer one throws a RangeError). */
  function TypedArraySet(target: seq<byte>, src: seq<byte>): (r: seq<byte>)
    requires |src| <= |target|
    ensures |r| == |target|
    ensures forall j :: 0 <= j < |src| ==> r[j] == src[j]
    ensures forall j :: |src| <= j < |target| ==> r[j] == target[j]
  {
    src + target[|src|..]
  }

  /** `analyser.getByteFrequencyData(dest)`: the analyser's current magnitudes
      `spectrum` are copied into `dest`; excess magnitudes are dropped and elements of
      `dest` beyond the spectrum keep their value. */
  function ByteFrequencyData(dest: seq<byte>, spectrum: seq<byte>): (r: seq<byte>)
    ensures |r| == |dest|
    ensures forall j :: 0 <= j < |dest| && j < |spectrum| ==> r[j] == spectrum[j]
    ensures forall j :: |spectrum| <= j < |dest| ==> r[j] == dest[j]
    ensures |spectrum| >= |dest| ==> r == spectrum[..|dest|]
  {
    var k := if |spectrum| < |dest| then |spectrum| else |dest|;
    TypedArraySet(dest, spectrum[..k])
  }

  /** Copy a snapshot into the shared byte view (`frequencyDataSABU8.set(snapshot)`). */
  function WriteMagnitudes(mem: SharedFrame, snapshot: seq<byte>): (r: SharedFrame)
    requires |snapshot| <= |mem.magnitudes|
    ensures r.cell == mem.cell
    ensures |snapshot| == |mem.magnitudes| ==> r.magnitudes == snapshot
  {
    mem.(magnitudes := TypedArraySet(mem.magnitudes, snapshot))
  }

  /** `Atomics.store(cell, 0, v)`: the cell takes the Int32 conversion of `v`; the bytes
      are untouched. */
  function StoreCell(mem: SharedFrame, v: int): (r: SharedFrame)
    ensures r.magnitudes == mem.magnitudes
    ensures IsFrameIx(v) ==> r.cell == v
  {
    mem.(cell := ToInt32(v))
  }
}

=== FILE: signal_analyzer.dfy ===
/**
  The audio-side producer (src/signalAnalyzer/SignalAnalyzerInst.ts): each display
  frame it samples the analyser into a private scratch buffer, copies that into the
  shared byte buffer, and then publishes the next frame counter through the notify cell.

  `requestAnimationFrame` becomes a count of scheduled callbacks (`pendingFrames`); a
  callback firing is the `FireFrame` step. The analyser's output is an opaque byte
  sequence handed to each step.
 */
module SignalAnalyzer {
  import opened Common
  import opened SharedMemory

  /** The producer's own fields. `hasWorkletNode` stands for `awpHandle !== null`. */
  datatype Analyzer = Analyzer(
    running: bool,
    destroyed: bool,
    frameIx: int,
    scratch: seq<byte>,
    pendingFrames: nat,
    hasWorkletNode: bool)

  /** The producer together with the memory it shares with the workers. */
  datatype Session = Session(analyzer: Analyzer, mem: SharedFrame)

  /** What an `animate` call did: the new session, and whether it stored and notified. */
  datatype Tick = Tick(session: Session, published: bool)

  /** Externally visible calls the lifecycle operations make, in order. */
  datatype Effect =
    | WarnAlreadyDestroyed
    | DestroyOscilloscope
    | DestroyLineSpectrogram
    | CloseWorkletPort
    | DisconnectWorkletNode
    | DisconnectInput
    | DisconnectSilentGain
    | CreateWorkletNode
    | ConnectInputToWorklet
    | ConnectWorkletToSilentGain
    | RequestSharedBuffer

  /** The exception setting `AnalyserNode.fftSize` to an unsupported size throws. */
  datatype ConstructError = IndexSizeError

  function IsPowerOfTwo(n: int): bool
    decreases n
  {
    if n < 1 then false
    else if n == 1 then true
    else n % 2 == 0 && IsPowerOfTwo(n / 2)
  }

  /** The sizes an `AnalyserNode` accepts: powers of two from 32 to 32768. */
  predicate ValidFftSize(n: int)
  {
    32 <= n <= 32768 && IsPowerOfTwo(n)
  }

  /** The shared buffer size computed first, then discarded when the buffer is
      allocated again with `fftSize / 2` bytes. */
  function DiscardedBufferSize(fftSize: int): (r: int)
    ensures r >= 32 && r >= fftSize / 2
    ensures r == 32 || r == fftSize / 2
  {
    var half := fftSize / 2;
    if half < 4 * 8 then 4 * 8 else half
  }

  /** Between two powers of two there is at least a factor of two. */
  lemma {:induction false} PowerOfTwoGap(m: int, n: int)
    requires IsPowerOfTwo(m) && IsPowerOfTwo(n) && m < n
    ensures 2 * m <= n
    decreases n
  {
    if m > 1 {
      PowerOfTwoGap(m / 2, n / 2);
    }
  }

  /** For every analyser size, the discarded size agrees with the one actually used,
      except for the smallest size, 32. */
  lemma DiscardedSizeMattersOnlyAt32(fftSize: int)
    requires ValidFftSize(fftSize)
    ensures DiscardedBufferSize(fftSize) == fftSize / 2 <==> fftSize != 32
  {
    if fftSize != 32 {
      assert IsPowerOfTwo(32) by {
        assert IsPowerOfTwo(1) && IsPowerOfTwo(2) && IsPowerOfTwo(4);
        assert IsPowerOfTwo(8) && IsPowerOfTwo(16);
      }
      PowerOfTwoGap(32, fftSize);
    }
  }

  /** The producer's invariant: the counter is in range and equals the cell, the scratch
      buffer holds `fftSize / 2` bytes, and the shared buffer holds the same bytes. */
  predicate Inv(s: Session, fftSize: int)
  {
    && IsFrameIx(s.analyzer.frameIx)
    && s.mem.cell == s.analyzer.frameIx
    && |s.analyzer.scratch| == fftSize / 2
    && s.mem.magnitudes == s.analyzer.scratch
  }

  /** The buffers have the same length, which is what `set` needs. */
  predicate Shaped(s: Session)
  {
    |s.analyzer.scratch| == |s.mem.magnitudes|
  }

  /** The constructor: configure the analyser, then allocate the notify cell, the shared
      buffer and the scratch buffer, all zero-filled. */
  function Construct(fftSize: int): (r: Result<Session, ConstructError>)
    ensures r.Success? <==> ValidFftSize(fftSize)
    ensures r.Success? ==> Inv(r.value, fftSize) && Shaped(r.value)
    ensures r.Success? ==>
      && !r.value.analyzer.running
      && !r.value.analyzer.destroyed
      && !r.value.analyzer.hasWorkletNode
      && r.value.analyzer.pendingFrames == 0
      && r.value.mem.cell == 0
      && (forall j :: 0 <= j < |r.value.mem.magnitudes| ==> r.value.mem.magnitudes[j] == 0)
  {
    if !ValidFftSize(fftSize) then Failure(IndexSizeError)
    else
      var zeros := seq(fftSize / 2, _ => 0 as byte);
      Success(Session(Analyzer(false, false, 0, zeros, 0, false), SharedFrame(zeros, 0)))
  }

  /** The part of `init` after the worklet module is registered: nothing but a warning
      once destroyed, otherwise the worklet node is created and wired up. */
  function Init(s: Session): (r: (Session, seq<Effect>))
    ensures s.analyzer.destroyed ==> r.0 == s && r.1 == [WarnAlreadyDestroyed]
    ensures s.analyzer.destroyed ==> CreateWorkletNode !in r.1
    ensures !s.analyzer.destroyed ==> r.0.analyzer.hasWorkletNode && |r.1| > 0 && r.1[0] == CreateWorkletNode
    ensures !s.analyzer.destroyed ==>
      && WarnAlreadyDestroyed !in r.1
      && ConnectInputToWorklet in r.1 && ConnectWorkletToSilentGain in r.1
      && r.1[|r.1| - 1] == RequestSharedBuffer
    ensures !s.analyzer.destroyed ==>
      |r.1| == 4 && r.1[1] == ConnectInputToWorklet && r.1[2] == ConnectWorkletToSilentGain
    ensures forall e :: e in r.1 ==> !IsTeardown(e)
    ensures r.0.mem == s.mem
    ensures r.0.analyzer.frameIx == s.analyzer.frameIx
    ensures r.0.analyzer.running == s.analyzer.running
    ensures r.0.analyzer.destroyed == s.analyzer.destroyed
    ensures r.0.analyzer.pendingFrames == s.analyzer.pendingFrames
    ensures r.0.analyzer.scratch == s.analyzer.scratch
  {
    if s.analyzer.destroyed then (s, [WarnAlreadyDestroyed])
    else
      (s.(analyzer := s.analyzer.(hasWorkletNode := true)),
       [CreateWorkletNode, ConnectInputToWorklet, ConnectWorkletToSilentGain, RequestSharedBuffer])
  }

  /** The shared region as a reader could observe it before, between and after the two
      writes a running `animate` makes: the snapshot copied into the shared buffer, then
      the next counter value stored into the cell. */
  function AnimateStages(s: Session, spectrum: seq<byte>): (r: seq<SharedFrame>)
    requires Shaped(s)
    ensures |r| == 3 && r[0] == s.mem
    ensures r[1].magnitudes == r[2].magnitudes == ByteFrequencyData(s.analyzer.scratch, spectrum)
    ensures r[1].cell == s.mem.cell
    ensures IsFrameIx(s.analyzer.frameIx) ==> r[2].cell == NextFrameIx(s.analyzer.frameIx)
  {
    var written := WriteMagnitudes(s.mem, ByteFrequencyData(s.analyzer.scratch, spectrum));
    [s.mem, written, StoreCell(written, NextFrameIx(s.analyzer.frameIx))]
  }

  /** `animate`: when not running, return at once; otherwise advance the counter, sample
      into scratch, copy scratch into the shared buffer, store the counter into the
      cell, notify, and schedule the next frame. */
  function Animate(s: Session, spectrum: seq<byte>): (r: Tick)
    requires Shaped(s)
    ensures Shaped(r.session)
    ensures r.published == s.analyzer.running
    ensures !s.analyzer.running ==> r.session == s
    ensures s.analyzer.running ==>
      && r.session.analyzer.frameIx == NextFrameIx(s.analyzer.frameIx)
      && r.session.analyzer.pendingFrames == s.analyzer.pendingFrames + 1
      && r.session.mem.magnitudes == r.session.analyzer.scratch
      && r.session.analyzer.scratch == ByteFrequencyData(s.analyzer.scratch, spectrum)
    ensures IsFrameIx(s.analyzer.frameIx) && s.analyzer.running ==>
      r.session.mem.cell == r.session.analyzer.frameIx
    ensures r.session.analyzer.running == s.analyzer.running
    ensures r.session.analyzer.destroyed == s.analyzer.destroyed
    ensures r.session.analyzer.hasWorkletNode == s.analyzer.hasWorkletNode
  {
    if !s.analyzer.running then Tick(s, false)
    else
      var stages := AnimateStages(s, spectrum);
      var a := s.analyzer.(frameIx := NextFrameIx(s.analyzer.frameIx),
                           scratch := ByteFrequencyData(s.analyzer.scratch, spectrum),
                           pendingFrames := s.analyzer.pendingFrames + 1);
      Tick(Session(a, stages[|stages| - 1]), true)
  }

  /** Write-before-publish: the stages run from the old region to the one `animate`
      leaves, and at every stage where the cell already shows the new counter the
      shared buffer already holds the new snapshot. */
  lemma WriteBeforePublish(s: Session, spectrum: seq<byte>)
    requires Shaped(s) && s.analyzer.running
    requires IsFrameIx(s.analyzer.frameIx) && s.mem.cell == s.analyzer.frameIx
    ensures var stages := AnimateStages(s, spectrum);
            var r := Animate(s, spectrum).session;
            && stages[0] == s.mem
            && stages[|stages| - 1] == r.mem
            && forall k :: 0 <= k < |stages| && stages[k].cell == r.analyzer.frameIx ==>
                 stages[k].magnitudes == r.analyzer.scratch
  {
    var stages := AnimateStages(s, spectrum);
    var r := Animate(s, spectrum).session;
    assert stages[0].cell != r.analyzer.frameIx;
  }

  /** A scheduled animation frame fires; with nothing scheduled, nothing happens. */
  function FireFrame(s: Session, spectrum: seq<byte>): (r: Tick)
    requires Shaped(s)
    ensures Shaped(r.session)
    ensures s.analyzer.pendingFrames == 0 ==> r == Tick(s, false)
    ensures !s.analyzer.running ==> !r.published && r.session.mem == s.mem
    ensures !s.analyzer.running ==> r.session.analyzer.frameIx == s.analyzer.frameIx
    ensures !s.analyzer.running && s.analyzer.pendingFrames > 0 ==>
      r.session.analyzer.pendingFrames == s.analyzer.pendingFrames - 1
    ensures s.analyzer.running && s.analyzer.pendingFrames > 0 ==>
      && r.published
      && r.session.analyzer.pendingFrames == s.analyzer.pendingFrames
      && r.session.analyzer.frameIx == NextFrameIx(s.analyzer.frameIx)
      && r.session.analyzer.scratch == ByteFrequencyData(s.analyzer.scratch, spectrum)
      && r.session.mem.magnitudes == r.session.analyzer.scratch
    ensures s.analyzer.running && s.analyzer.pendingFrames > 0 && IsFrameIx(s.analyzer.frameIx) ==>
      r.session.mem.cell == r.session.analyzer.frameIx
  {
    if s.analyzer.pendingFrames == 0 then Tick(s, false)
    else Animate(s.(analyzer := s.analyzer.(pendingFrames := s.analyzer.pendingFrames - 1)), spectrum)
  }

  /** `pause`: clear the running flag. */
  function Pause(s: Session): (r: Session)
    ensures !r.analyzer.running
    ensures r.mem == s.mem
    ensures r.analyzer.frameIx == s.analyzer.frameIx
    ensures r.analyzer.destroyed == s.analyzer.destroyed
    ensures r.analyzer.pendingFrames == s.analyzer.pendingFrames
    ensures r.analyzer.scratch == s.analyzer.scratch
    ensures r.analyzer.hasWorkletNode == s.analyzer.hasWorkletNode
  {
    s.(analyzer := s.analyzer.(running := false))
  }

  /** `resume`: set the running flag, then call `animate` once directly. */
  function Resume(s: Session, spectrum: seq<byte>): (r: Tick)
    requires Shaped(s)
    ensures Shaped(r.session)
    ensures r.published && r.session.analyzer.running
    ensures r.session.analyzer.frameIx == NextFrameIx(s.analyzer.frameIx)
    ensures r.session.analyzer.pendingFrames == s.analyzer.pendingFrames + 1
    ensures IsFrameIx(s.analyzer.frameIx) ==> r.session.mem.cell == r.session.analyzer.frameIx
    ensures r.session.mem.magnitudes == r.session.analyzer.scratch
    ensures r.session.analyzer.scratch == ByteFrequencyData(s.analyzer.scratch, spectrum)
    ensures r.session.analyzer.destroyed == s.analyzer.destroyed
    ensures r.session.analyzer.hasWorkletNode == s.analyzer.hasWorkletNode
  {
    Animate(s.(analyzer := s.analyzer.(running := true)), spectrum)
  }

  /** A teardown step, i.e. everything `destroy` does besides warning. */
  predicate IsTeardown(e: Effect)
  {
    e in {DestroyOscilloscope, DestroyLineSpectrogram, CloseWorkletPort,
          DisconnectWorkletNode, DisconnectInput, DisconnectSilentGain}
  }

  /** How often a first `destroy` performs effect `e`: every teardown step once, except
      the worklet node's two, which happen only if the node exists. */
  function TeardownCount(hasWorklet: bool, e: Effect): nat
  {
    if !IsTeardown(e) then 0
    else if e == CloseWorkletPort || e == DisconnectWorkletNode then (if hasWorklet then 1 else 0)
    else 1
  }

  /** The teardown steps of a first `destroy`, in order; the worklet node's port is
      closed before the node is disconnected. */
  function TeardownEffects(hasWorklet: bool): (r: seq<Effect>)
    ensures forall e :: multiset(r)[e] == TeardownCount(hasWorklet, e)
    ensures hasWorklet ==> exists j :: 0 <= j < |r| - 1 && r[j] == CloseWorkletPort && r[j + 1] == DisconnectWorkletNode
  {
    var worklet := if hasWorklet then [CloseWorkletPort, DisconnectWorkletNode] else [];
    var r := [DestroyOscilloscope, DestroyLineSpectrogram] + worklet + [DisconnectInput, DisconnectSilentGain];
    assert multiset(r) == multiset([DestroyOscilloscope, DestroyLineSpectrogram]) + multiset(worklet)
                          + multiset([DisconnectInput, DisconnectSilentGain]);
    assert hasWorklet ==> r[2] == CloseWorkletPort && r[3] == DisconnectWorkletNode;
    r
  }

  /** `destroy`: on a second call only a warning; otherwise mark destroyed and tear the
      audio graph down (the worklet node only if it was created). */
  function Destroy(s: Session): (r: (Session, seq<Effect>))
    ensures r.0.analyzer.destroyed
    ensures s.analyzer.destroyed ==> r == (s, [WarnAlreadyDestroyed])
    ensures !s.analyzer.destroyed ==>
      forall e :: multiset(r.1)[e] == TeardownCount(s.analyzer.hasWorkletNode, e)
    ensures r.0.mem == s.mem
    ensures r.0.analyzer.running == s.analyzer.running
    ensures r.0.analyzer.frameIx == s.analyzer.frameIx
    ensures r.0.analyzer.hasWorkletNode == s.analyzer.hasWorkletNode
    ensures r.0.analyzer.pendingFrames == s.analyzer.pendingFrames
    ensures r.0.analyzer.scratch == s.analyzer.scratch
    ensures !s.analyzer.destroyed ==> r.1 == TeardownEffects(s.analyzer.hasWorkletNode)
  {
    if s.analyzer.destroyed then (s, [WarnAlreadyDestroyed])
    else
      (s.(analyzer := s.analyzer.(destroyed := true)), TeardownEffects(s.analyzer.hasWorkletNode))
  }

  /** `destroy` called `n` times in a row: the final session and everything the calls did. */
  function DestroyRepeatedly(s: Session, n: nat): (r: (Session, seq<Effect>))
    decreases n
  {
    if n == 0 then (s, [])
    else
      var (s1, e1) := Destroy(s);
      var (s2, e2) := DestroyRepeatedly(s1, n - 1);
      (s2, e1 + e2)
  }

  /** A second `destroy` changes nothing and only warns. */
  lemma DestroyIdempotent(s: Session)
    ensures Destroy(Destroy(s).0) == (Destroy(s).0, [WarnAlreadyDestroyed])
  {
  }

  /** Repeated calls on a destroyed session only warn: the state stays put and every
      effect is a warning. */
  lemma {:induction false} DestroyedOnlyWarns(s: Session, n: nat)
    requires s.analyzer.destroyed
    ensures DestroyRepeatedly(s, n).0 == s
    ensures |DestroyRepeatedly(s, n).1| == n
    ensures forall e :: e in DestroyRepeatedly(s, n).1 ==> e == WarnAlreadyDestroyed
    decreases n
  {
    if n > 0 {
      DestroyedOnlyWarns(s, n - 1);
    }
  }

  /** One `destroy` call performs each teardown step at most once, and none on a
      destroyed session. */
  lemma DestroyEffectsDistinct(s: Session, e: Effect)
    requires IsTeardown(e)
    ensures multiset(Destroy(s).1)[e] <= 1
    ensures s.analyzer.destroyed ==> multiset(Destroy(s).1)[e] == 0
  {
  }

  /** However often `destroy` is called, each teardown step happens at most once. */
  lemma {:induction false} TeardownAtMostOnce(s: Session, n: nat, e: Effect)
    requires IsTeardown(e)
    ensures multiset(DestroyRepeatedly(s, n).1)[e] <= 1
    ensures s.analyzer.destroyed ==> multiset(DestroyRepeatedly(s, n).1)[e] == 0
    decreases n
  {
    if n > 0 {
      var (s1, e1) := Destroy(s);
      DestroyEffectsDistinct(s, e);
      DestroyedOnlyWarns(s1, n - 1);
      var rest := DestroyRepeatedly(s1, n - 1).1;
      assert e !in rest;
      assert multiset(rest)[e] == 0;
      assert multiset(e1 + rest) == multiset(e1) + multiset(rest);
    }
  }

  /** `destroy` does not clear the running flag, so a destroyed analyzer that was running
      keeps publishing on every scheduled frame. */
  lemma DestroyedAnalyzerStillPublishes(s: Session, spectrum: seq<byte>)
    requires Shaped(s) && s.analyzer.running && s.analyzer.pendingFrames > 0
    ensures FireFrame(Destroy(s).0, spectrum).published
    ensures FireFrame(Destroy(s).0, spectrum).session.analyzer.frameIx == NextFrameIx(s.analyzer.frameIx)
  {
  }

  /** The animation frames a sequence of analyser snapshots drives, one per snapshot. */
  function FireFrames(s: Session, spectra: seq<seq<byte>>): (r: Session)
    requires Shaped(s)
    ensures Shaped(r)
    ensures r.analyzer.pendingFrames <= s.analyzer.pendingFrames
    ensures s.analyzer.running && s.analyzer.pendingFrames > 0 ==>
      r.analyzer.pendingFrames == s.analyzer.pendingFrames
    ensures r.analyzer.running == s.analyzer.running
    ensures r.analyzer.destroyed == s.analyzer.destroyed
    ensures r.analyzer.hasWorkletNode == s.analyzer.hasWorkletNode
    decreases |spectra|
  {
    if |spectra| == 0 then s
    else FireFrames(FireFrame(s, spectra[0]).session, spectra[1..])
  }

  /** Once paused, any number of frames leave the counter, the cell and the shared
      buffer alone, and the analyzer stays paused. */
  lemma {:induction false} PausedFramesInert(s: Session, spectra: seq<seq<byte>>)
    requires Shaped(s) && !s.analyzer.running
    ensures FireFrames(s, spectra).mem == s.mem
    ensures FireFrames(s, spectra).analyzer.frameIx == s.analyzer.frameIx
    ensures !FireFrames(s, spectra).analyzer.running
    decreases |spectra|
  {
    if |spectra| > 0 {
      PausedFramesInert(FireFrame(s, spectra[0]).session, spectra[1..]);
    }
  }

  /** `k` frames advance the counter from `f` to this value. */
  function FrameAfter(f: int, k: nat): int
  {
    (f + k) % FrameWrap
  }

  lemma NextFrameAfter(f: int, k: nat)
    requires IsFrameIx(f)
    ensures NextFrameIx(FrameAfter(f, k)) == FrameAfter(f, k + 1)
  {
  }

  /** While running with a frame scheduled, `k` frames advance the counter by `k` modulo
      the wrap bound, keep the invariant, and leave the cell equal to the counter and
      the shared buffer equal to the last snapshot taken. */
  lemma {:induction false} RunningFramesAdvance(s: Session, spectra: seq<seq<byte>>, fftSize: int)
    requires Inv(s, fftSize) && s.analyzer.running && s.analyzer.pendingFrames > 0
    ensures var r := FireFrames(s, spectra);
            && Inv(r, fftSize)
            && r.analyzer.running
            && r.analyzer.pendingFrames == s.analyzer.pendingFrames
            && r.analyzer.frameIx == FrameAfter(s.analyzer.frameIx, |spectra|)
            && r.mem.cell == r.analyzer.frameIx
            && r.mem.magnitudes == r.analyzer.scratch
            && (|spectra| > 0 ==>
                  forall j :: 0 <= j < fftSize / 2 && j < |spectra[|spectra| - 1]| ==>
                    r.mem.magnitudes[j] == spectra[|spectra| - 1][j])
            && (|spectra| > 0 && |spectra[|spectra| - 1]| >= fftSize / 2 ==>
                  r.mem.magnitudes == spectra[|spectra| - 1][..fftSize / 2])
    decreases |spectra|
  {
    if |spectra| > 0 {
      var s1 := FireFrame(s, spectra[0]).session;
      RunningFramesAdvance(s1, spectra[1..], fftSize);
      NextFrameAfter(s.analyzer.frameIx, 0);
      assert s1.analyzer.frameIx == FrameAfter(s.analyzer.frameIx, 1);
      FramesCompose(s.analyzer.frameIx, 1, |spectra| - 1);
    }
  }

  lemma FramesCompose(f: int, a: nat, b: nat)
    requires IsFrameIx(f)
    ensures FrameAfter(FrameAfter(f, a), b) == FrameAfter(f, a + b)
  {
  }

  /** `resume` never cancels the callback already scheduled, so it adds a chain: after it,
      one display refresh (every scheduled callback firing once) advances the counter by
      one more than before, on top of the tick `resume` makes itself. With no callback
      pending (after construction, or once a paused callback has fired) this is the one
      chain of a normal resume. */
  lemma ResumeAddsChain(s: Session, spectrum: seq<byte>, refresh: seq<seq<byte>>, fftSize: int)
    requires Inv(s, fftSize)
    requires |refresh| == s.analyzer.pendingFrames + 1
    ensures var r := Resume(s, spectrum).session;
            && Inv(r, fftSize)
            && r.analyzer.pendingFrames == s.analyzer.pendingFrames + 1
            && FireFrames(r, refresh).analyzer.frameIx == FrameAfter(r.analyzer.frameIx, |refresh|)
  {
    RunningFramesAdvance(Resume(s, spectrum).session, refresh, fftSize);
  }

  /** Calling `resume` on an analyzer that is already running with its one chain of
      frames makes two chains: from then on the counter advances twice per refresh. */
  lemma ResumeWhileRunningDoublesChains(s: Session, spectrum: seq<byte>, refresh: seq<seq<byte>>, fftSize: int)
    requires Inv(s, fftSize) && s.analyzer.running && s.analyzer.pendingFrames == 1
    requires |refresh| == 2
    ensures var r := Resume(s, spectrum).session;
            && r.analyzer.pendingFrames == 2
            && FireFrames(r, refresh).analyzer.frameIx == FrameAfter(r.analyzer.frameIx, 2)
            && FireFrames(r, refresh).analyzer.pendingFrames == 2
  {
    ResumeAddsChain(s, spectrum, refresh, fftSize);
  }

  /** `pause` leaves the scheduled callback in place (it fires once more and stops), so a
      `resume` before it fires also makes two chains. */
  lemma PauseThenResumeDoublesChains(s: Session, spectrum: seq<byte>, refresh: seq<seq<byte>>, fftSize: int)
    requires Inv(s, fftSize) && s.analyzer.pendingFrames == 1
    requires |refresh| == 2
    ensures var r := Resume(Pause(s), spectrum).session;
            && r.analyzer.pendingFrames == 2
            && FireFrames(r, refresh).analyzer.frameIx == FrameAfter(r.analyzer.frameIx, 2)
            && FireFrames(r, refresh).analyzer.pendingFrames == 2
  {
    ResumeAddsChain(Pause(s), spectrum, refresh, fftSize);
  }
}
